=== FILE: README.md ===
# Wildberries price lookup: a Dafny model

This project models the price pipeline of the Wildberries parser (`main.py`):

- **Price extraction** (`get_prices_by_article`). The decoded API response is a JSON value. The lookup reads `data.products`. An empty or missing list means "not found". Otherwise it takes only the first product and walks that product's `sizes` in order. It returns the five prices of the first size whose `price` block is a non-empty dict with truthy `basic`, `product` and `total`. When no size qualifies, it reports "no available sizes". A transport failure becomes a `Request error: ...` result.
- **Formatting**. A count of kopecks `n` is written as roubles with two decimals and the suffix `" RUB"`. The model uses integer division, not floats: `12345` gives `"123.45 RUB"`.
- **Batch loop** (`process_excel`). The loop walks the first column of the sheet in order. A blank cell gets the error `"Empty article"` and no request. Any other cell has its row's six result cells overwritten with the lookup's tuple. An exception that escapes a lookup aborts the run, and no file is written.

Files, one module each:

- `wrappers.dfy`: `Option`.
- `pyjson.dfy`: the JSON value, Python truthiness, `dict.get`, and the operand rules of `/ 100`. An exception other than a request error is the value `Raised`.
- `decimal.dfy`: `str(int)` and its inverse.
- `rubformat.dfy`: the price formatter and a parser that reads prices back.
- `extractor.dfy`: `get_prices_by_article` on the outcome of the request.
- `batch.dfy`: the row loop of `process_excel`. It is an imperative method over an array of result rows.

The request is an input to the model. `Response` is either `RequestFailed(message)` or `Body(json)`. In the batch, the endpoint is a function `Fetch` from article key to response. `ProcessExcel` also returns the keys it requested, in order, which shows exactly when a request is made.

Two behaviours of the code that a reader might not expect, both kept by the model:

- A missing `logistics` or `return` price does not give an empty cell. `None / 100` raises `TypeError` (main.py:51-52). `get_prices_by_article` catches only `requests.RequestException` (main.py:58), so the error escapes, and `process_excel` aborts before writing anything (main.py:112-113). See `MissingLogisticsOrReturnRaises` and `OutcomeCases`.
- A price of 0 is falsy, so a size whose `basic`, `product` or `total` is 0 is skipped (main.py:46). See `PriceExtractor.ZeroCorePriceSkipped`.

## Model

| member | source | states |
|---|---|---|
| `PyJson.Truthy` | main.py:29-46 | None is falsy, and an int or bool is truthy exactly when it is not 0, so a zero price counts as missing |
| `PyJson.Get` | main.py:28-38 | `d.get(k, default)` succeeds exactly on a dict. It gives `d[k]` when the key is present and the default when it is absent; on any other value it raises |
| `Decimal.NatToString` | main.py:95 | the decimal form of an article number has at least one digit, only digits, and no leading zero |
| `Decimal.IntToString` | main.py:95 | `str(n)` is non-empty, starts with `-` exactly when n is negative, and is otherwise digits |
| `Decimal.IntToStringRoundTrip` | main.py:95 | `str(int(article))` is read back as the same integer, for every integer including negatives |
| `Decimal.IntToStringInjective` | main.py:95 | distinct article numbers give distinct lookup keys |
| `RubFormat.Amount` | main.py:48-52 | the amount text has at least four characters, starts with a digit, and starts with `0` only when the amount is under one rouble, in which case that `0` is followed by the point |
| `RubFormat.FormatRub` | main.py:48-52 | a formatted price ends in `" RUB"`, starts with `-` exactly when the amount is negative, and its rouble digits start with `0` only when the amount is under one rouble in magnitude, and then that `0` is the whole rouble part, as `:.2f` prints no leading zeros; with `FormatRubRoundTrip` giving its value, this fixes the text |
| `RubFormat.AmountRoundTrip` | main.py:48-52 | `"<n div 100>.<n mod 100, two digits>"` reads back as exactly n kopecks |
| `RubFormat.SignedRoundTrip` | main.py:48-52 | with the minus sign Python prints for negative amounts, the text reads back as the signed amount |
| `RubFormat.FormatRubRoundTrip` | main.py:48-52 | a formatted price reads back as exactly the kopecks it was made from, so it shows `n / 100` roubles to two decimals and no two prices print alike |
| `RubFormat.FormatRubExample` | main.py:48 | 12345 kopecks print as `"123.45 RUB"`, and -5 as `"-0.05 RUB"` |
| `PriceExtractor.ProductList` | main.py:28 | a body that is not a dict, or whose `data` is present but not a dict, raises. A missing `data` gives `[]`; otherwise the result is `data.products`, or `[]` when that key is absent |
| `PriceExtractor.FirstProduct` | main.py:29-33 | `products[0]` succeeds exactly on a non-empty list, giving its first element, or on a non-empty string, giving its first character; a dict, number or bool raises |
| `PriceExtractor.StringProductListRaises` | main.py:33-34 | when `products` is a non-empty string, its first character is the product and `.get("sizes", [])` on it raises |
| `PriceExtractor.ZeroCorePriceSkipped` | main.py:39-46 | a size whose price dict has a falsy `basic`, `product` or `total` (0, None, missing) is passed over |
| `PriceExtractor.SizeSequence` | main.py:34-38 | it raises exactly when the product is not a dict, or its `sizes` is present, not a list, and either truthy or not a str or dict. So None, a number or a bool is not iterable, and a non-empty str or dict yields str elements whose `.get` raises. A missing `sizes` gives no sizes, a list gives its items, and any non-empty result is exactly the product's `sizes` list |
| `PriceExtractor.Qualifies` | main.py:38-46 | a size the loop returns from is a dict with a `price` dict holding the keys `basic`, `product` and `total` |
| `PriceExtractor.Skipped` | main.py:38-46 | a skipped size never qualifies, and a dict size without a `price` key is always skipped |
| `PriceExtractor.SizeCases` | main.py:37-46 | every size entry either qualifies, is skipped, or makes the loop body raise; it never both qualifies and is skipped |
| `PriceExtractor.ScanFrom` | main.py:37-54 | the size loop stops at the first size that is not skipped, and every size before it is skipped. A qualifying stop yields that size's price block; running off the end means every size was skipped |
| `PriceExtractor.ScanFromStopsAt` | main.py:37-54 | when sizes before k are skipped and size k is not, the loop selects size k if it qualifies and raises on it otherwise, whatever follows |
| `PriceExtractor.ScanFromExhausts` | main.py:37-56 | when every size is skipped, the loop finishes without a match |
| `PriceExtractor.ScanFromIgnoresLaterSizes` | main.py:37-54 | appending sizes after the stopping point never changes the scan from any position |
| `PriceExtractor.LaterSizesNeverExamined` | main.py:46-54 | sizes after the selected or malformed one are never examined |
| `PriceExtractor.Div100` | main.py:48-52 | `f"{x / 100:.2f} RUB"` succeeds exactly when `x` is an int or a bool. Its text is the canonical `FormatRub` text of `x`, which is non-empty and reads back as `x` kopecks |
| `PriceExtractor.FormatPrices` | main.py:46-54 | the success tuple is built exactly when all five prices can be divided by 100. It then has five prices and no error, and each price is the `FormatRub` text of the block's amount for its key and reads back as that amount |
| `PriceExtractor.PricesByArticle` | main.py:22-59 | every returned tuple has either five non-empty prices and no error, or no price and a non-empty error. A transport failure gives `"Request error: " + message` |
| `PriceExtractor.PricesInBody` | main.py:28-33 | every tuple returned for a decoded body has exactly one of prices or error |
| `PriceExtractor.PricesOfProduct` | main.py:34-56 | every tuple returned from the size loop has exactly one of prices or error |
| `PriceExtractor.NotFoundWhenNoProducts` | main.py:28-30 | a missing `data`, a missing `products`, or an empty product list gives `"Product with article {a} not found."` with no price |
| `PriceExtractor.OnlyFirstProductConsulted` | main.py:33 | products after the first never change the result |
| `PriceExtractor.FirstQualifyingSizeSelected` | main.py:37-54 | when every earlier size is skipped, the first qualifying size's price block decides the result, whatever follows it |
| `PriceExtractor.NoQualifyingSizeReported` | main.py:56 | when every size is skipped, or there are none, the result is `"No available sizes with prices for article {a}."` with no price |
| `PriceExtractor.MissingLogisticsOrReturnRaises` | main.py:43-52 | when the selected block lacks `logistics` or `return`, the lookup raises instead of returning an error tuple |
| `ExcelBatch.FirstRaise` | main.py:87-101 | over the rows' lookup results in order, finds the first one that raises, or the row count when none does; every earlier row completes |
| `ExcelBatch.ArticleKey` | main.py:95 | `str(int(article))` reads back as the article number |
| `ExcelBatch.RowFor` | main.py:89-101 | a blank cell always completes, with error `"Empty article"`; a looked-up row that completes has exactly one of prices or error |
| `ExcelBatch.Batch` | main.py:73-113 | the run stops before the loop (main.py:73-75) exactly when the sheet is empty. An abort names a row whose lookup raises, after every earlier row completed. A saved table has one row per input row, each the result of its own row |
| `ExcelBatch.FillRow` | main.py:88-101 | one iteration on row i. A blank cell sends no request and sets only the error column. Otherwise the row takes the lookup's tuple, or nothing is written when the lookup raises. No other row changes |
| `ExcelBatch.ProcessExcel` | main.py:68-113 | the loop's result is the outcome of the whole run. On abort, the keys requested are those of the non-blank cells up to and including the failing row; otherwise they are those of all non-blank cells, in order |
| `ExcelBatch.BatchAborts` | main.py:87-113 | when every earlier row completes, a raising lookup at row i aborts the run at i |
| `ExcelBatch.BatchSaves` | main.py:87-110 | when no lookup raises, the sheet written holds every row's result in input order |
| `ExcelBatch.SavedRowsFollowInput` | main.py:78-101 | a saved sheet has one row per input row, in order. A blank row shows `"Empty article"` with `""` price cells; any other row holds its own article's lookup. Every row shows either prices or an error, never both and never neither |
| `ExcelBatch.RowDependsOnlyOnItsCell` | main.py:87-101 | a row's result depends only on its own cell and on the response for its own key |
| `ExcelBatch.OutcomeCases` | main.py:87-113 | a sheet is written exactly when the input has rows and no lookup raises. An abort happens at the first raising row, and that row holds an article |
| `ExcelBatch.EmptySheetWritesNothing` | main.py:73-75 | an empty sheet requests nothing and writes nothing |
| `ExcelBatch.ThreeRowExample` | main.py:87-101 | the sheet `[1001, blank, 2002]`, where 1001's response is the sample body of `ExcelBatch.SampleLookup` and 2002's product list is empty, is saved as three rows in input order: 1001's five formatted prices with no error, `"Empty article"` with `""` prices, then `"Product with article 2002 not found."` |
| `ExcelBatch.SampleLookup` | main.py:28-54 | a body whose only product has one size priced basic 10000, product 9000, total 9000, logistics 500, return 100 gives `"100.00 RUB"`, `"90.00 RUB"`, `"90.00 RUB"`, `"5.00 RUB"`, `"1.00 RUB"` and no error |
| `ExcelBatch.BlankCellRequestsNothing` | main.py:89-95 | inserting a blank cell anywhere leaves the requests unchanged |

## Left out

- The HTTP request itself: `requests.get`, `raise_for_status`, `.json()`, the endpoint URL and its query parameters (main.py:12-25). The outcome of the request is an input, and the text of `str(e)` is the opaque `message`.
- Reading and writing the workbook with pandas (main.py:70, main.py:109), including the `df.columns[0] is None` header test. The first column is given as `seq<Option<int>>`, where `None` means `pd.isna` holds, and the saved sheet is the sequence of result rows.
- `str(int(article))` on a non-integer cell: cells are integers, so truncation of floats such as 12.7 is not modelled.
- Progress and error `print` lines (main.py:91, main.py:104-106, main.py:110, main.py:113), which are only observable output. For the same reason, an aborted run records only the failing row, not the exception's message.
- The `__main__` entry point and its fixed file names (main.py:116-120).
- JSON numbers with a fractional part: `Num` holds integers, as the API sends whole kopecks.
- Python's handling of a JSON object with duplicate keys: an object is a map.
- FormatRub: writes the exact decimal of `n / 100`. The source divides in floating point first. The two agree while `|n| / 100` is below 2^46, because the float error is then under half a kopeck. Larger amounts, where float rounding or `OverflowError` would show, are not modelled.
- The dtype coercions pandas may apply when a `None` is stored into a column of strings. A result cell is modelled as `None` or a string.
- Fetch: the endpoint is a function of the article key, so every row with the same article gets the same response within a run. The source sends a new request per row (main.py:23, main.py:95), so a transient transport error or a price change between two requests for one article could give different rows. The model assumes responses are stable within a run, and `SavedRowsFollowInput` relies on that.
- A first column whose header is `basic`, `product`, `total`, `logistics`, `return` or `error`: the assignments at main.py:78-83 then overwrite the article column with `""`, so `int("")` raises and the run aborts at the first row (main.py:95, main.py:112). The model keeps the input column and the result table apart, so it cannot show this.

=== FILE: batch.dfy ===
/**
 * The row loop of `process_excel`: every cell of the first column is looked up in turn and
 * the six result columns of its row are filled in place. An exception escaping a lookup
 * aborts the run and nothing is written.
 */
module ExcelBatch {
  import opened Wrappers
  import opened PyJson
  import opened Decimal
  import opened RubFormat
  import opened PriceExtractor

  /** A cell of the first column: `None` where `pd.isna` holds, the article number otherwise. */
  type Cell = Option<int>

  /** The endpoint, as the response it gives for an article key. */
  type Fetch = string -> Response

  /**
   * What a run leaves behind: nothing for an empty sheet; nothing, after row `row` raised;
   * or the result columns of every row, saved to the output file.
   */
  datatype RunOutcome = NoArticles | Aborted(row: nat) | Saved(table: seq<PriceRow>)

  /** The six result cells right after `df[column] = ""` for each result column. */
  const BlankCells := PriceRow(Some(""), Some(""), Some(""), Some(""), Some(""), Some(""))

  const EmptyArticle := "Empty article"

  /** `str(int(article))`: the key the article is looked up by. */
  function ArticleKey(article: int): (key: string)
    ensures ParseInt(key) == Some(article)
  {
    IntToStringRoundTrip(article);
    IntToString(article)
  }

  /**
   * The result cells one iteration leaves in a row that held `BlankCells`: for a blank cell
   * only the error column is set; otherwise all six take the lookup's tuple.
   */
  function RowFor(cell: Cell, fetch: Fetch): (r: Eval<PriceRow>)
    ensures cell.None? ==> r.Done? && r.value.error == Some(EmptyArticle)
    ensures cell.Some? && r.Done? ==> Settled(r.value)
  {
    match cell
    case None => Done(BlankCells.(error := Some(EmptyArticle)))
    case Some(article) => PricesByArticle(ArticleKey(article), fetch(ArticleKey(article)))
  }

  /** The key a cell is looked up by, if any: none for a blank cell. */
  function RequestOf(cell: Cell): seq<string> {
    match cell
    case None => []
    case Some(article) => [ArticleKey(article)]
  }

  /** The keys requested, in order, while the loop visits `cells`: one per non-blank cell. */
  function Requests(cells: seq<Cell>): seq<string> {
    if cells == [] then []
    else
      Requests(cells[..|cells| - 1]) + RequestOf(cells[|cells| - 1])
  }

  /** What each row's lookup gives, in row order. */
  function Lookups(cells: seq<Cell>, fetch: Fetch): (results: seq<Eval<PriceRow>>)
    ensures |results| == |cells| && forall j :: 0 <= j < |cells| ==> results[j] == RowFor(cells[j], fetch)
  {
    seq(|cells|, j requires 0 <= j < |cells| => RowFor(cells[j], fetch))
  }

  /** The first row from `i` on whose lookup raises, or `|results|` when none does. */
  function FirstRaise(results: seq<Eval<PriceRow>>, i: nat): (k: nat)
    requires i <= |results|
    ensures i <= k <= |results|
    ensures forall j :: i <= j < k ==> results[j].Done?
    ensures k < |results| ==> results[k].Raised?
    decreases |results| - i
  {
    if i == |results| || results[i].Raised? then i else FirstRaise(results, i + 1)
  }

  /** The outcome of `process_excel` on a first column `cells`. */
  function Batch(cells: seq<Cell>, fetch: Fetch): (r: RunOutcome)
    ensures r.NoArticles? <==> cells == []
    ensures r.Aborted? ==> r.row < |cells| && RowFor(cells[r.row], fetch).Raised?
    ensures r.Aborted? ==> forall j :: 0 <= j < r.row ==> RowFor(cells[j], fetch).Done?
    ensures r.Saved? ==> |r.table| == |cells| && forall i :: 0 <= i < |cells| ==> RowFor(cells[i], fetch) == Done(r.table[i])
  {
    if cells == [] then NoArticles
    else
      var results := Lookups(cells, fetch);
      var k := FirstRaise(results, 0);
      if k < |results| then Aborted(k)
      else Saved(seq(|results|, i requires 0 <= i < |results| => results[i].value))
  }

  /**
   * One iteration of the loop on row `i`: a blank cell gets only its error column set,
   * without any request; otherwise the article is looked up and the row's six result
   * cells take the tuple. No other row changes. When the lookup raises, nothing is written.
   */
  method FillRow(sheet: array<PriceRow>, i: nat, cell: Cell, fetch: Fetch) returns (raised: bool, sent: seq<string>)
    requires i < sheet.Length && sheet[i] == BlankCells
    modifies sheet
    ensures sent == RequestOf(cell)
    ensures raised == RowFor(cell, fetch).Raised?
    ensures raised ==> sheet[..] == old(sheet[..])
    ensures !raised ==> RowFor(cell, fetch) == Done(sheet[i])
    ensures forall j :: 0 <= j < sheet.Length && j != i ==> sheet[j] == old(sheet[j])
  {
    match cell
    case None =>
      sheet[i] := sheet[i].(error := Some(EmptyArticle));
      return false, [];
    case Some(article) =>
      var key := ArticleKey(article);
      var result := PricesByArticle(key, fetch(key));
      if result.Raised? {
        return true, [key];
      }
      sheet[i] := result.value;
      return false, [key];
  }

  /**
   * `process_excel` between reading the sheet and writing it: `outcome` is what gets
   * written, `requested` the keys sent to the endpoint, in order.
   */
  method ProcessExcel(cells: seq<Cell>, fetch: Fetch) returns (outcome: RunOutcome, requested: seq<string>)
    ensures outcome == Batch(cells, fetch)
    ensures outcome.Aborted? ==> outcome.row < |cells| && requested == Requests(cells[..outcome.row + 1])
    ensures !outcome.Aborted? ==> requested == Requests(cells)
  {
    if |cells| == 0 {
      return NoArticles, [];
    }
    var sheet := new PriceRow[|cells|](_ => BlankCells);
    requested := [];
    for i := 0 to |cells|
      invariant forall j :: 0 <= j < i ==> RowFor(cells[j], fetch) == Done(sheet[j])
      invariant forall j :: i <= j < |cells| ==> sheet[j] == BlankCells
      invariant requested == Requests(cells[..i])
    {
      var raised, sent := FillRow(sheet, i, cells[i], fetch);
      RequestsStep(cells, i);
      requested := requested + sent;
      if raised {
        BatchAborts(cells, fetch, i);
        return Aborted(i), requested;
      }
    }
    BatchSaves(cells, fetch, sheet[..]);
    assert cells[..|cells|] == cells;
    outcome := Saved(sheet[..]);
  }

  lemma RequestsStep(cells: seq<Cell>, i: nat)
    requires i < |cells|
    ensures Requests(cells[..i + 1]) == Requests(cells[..i]) + RequestOf(cells[i])
  {
    assert cells[..i + 1][..i] == cells[..i];
  }

  /** A run stops at the first row whose lookup raises. */
  lemma BatchAborts(cells: seq<Cell>, fetch: Fetch, i: nat)
    requires i < |cells|
    requires forall j :: 0 <= j < i ==> RowFor(cells[j], fetch).Done?
    requires RowFor(cells[i], fetch).Raised?
    ensures Batch(cells, fetch) == Aborted(i)
  {
    FirstRaiseIs(Lookups(cells, fetch), 0, i);
  }

  /** A run in which no lookup raises saves every row's result cells. */
  lemma BatchSaves(cells: seq<Cell>, fetch: Fetch, table: seq<PriceRow>)
    requires |cells| > 0 && |table| == |cells|
    requires forall j :: 0 <= j < |cells| ==> RowFor(cells[j], fetch).Done? && table[j] == RowFor(cells[j], fetch).value
    ensures Batch(cells, fetch) == Saved(table)
  {
    FirstRaiseNone(Lookups(cells, fetch), 0);
  }

  /** The search for a raising row stops at the first one. */
  lemma {:induction false} FirstRaiseIs(results: seq<Eval<PriceRow>>, i: nat, k: nat)
    requires i <= k < |results|
    requires forall j :: i <= j < k ==> results[j].Done?
    requires results[k].Raised?
    ensures FirstRaise(results, i) == k
    decreases k - i
  {
    if i < k {
      FirstRaiseIs(results, i + 1, k);
    }
  }

  /** With no raising row, the search runs to the end. */
  lemma {:induction false} FirstRaiseNone(results: seq<Eval<PriceRow>>, i: nat)
    requires i <= |results|
    requires forall j :: i <= j < |results| ==> results[j].Done?
    ensures FirstRaise(results, i) == |results|
    decreases |results| - i
  {
    if i < |results| {
      FirstRaiseNone(results, i + 1);
    }
  }

  /** An empty result cell: Python's None, or the "" the column was created with. */
  predicate EmptyCell(cell: Option<string>) {
    cell.None? || cell == Some("")
  }

  /**
   * A sheet row that shows an error: a non-empty error and five empty price cells, either
   * None from a failed lookup or the "" a blank-article row keeps.
   */
  predicate ShowsError(row: PriceRow) {
    && EmptyCell(row.basic) && EmptyCell(row.product) && EmptyCell(row.total)
    && EmptyCell(row.logistics) && EmptyCell(row.ret)
    && row.error.Some? && row.error.value != ""
  }

  /**
   * A saved sheet has one row per input row, in input order. A blank cell's row shows
   * "Empty article" with empty price cells; any other row shows the lookup of its own
   * article; and every row shows either prices or an error, never both and never neither.
   */
  lemma SavedRowsFollowInput(cells: seq<Cell>, fetch: Fetch)
    requires Batch(cells, fetch).Saved?
    ensures |Batch(cells, fetch).table| == |cells|
    ensures forall i :: 0 <= i < |cells| && cells[i].None? ==>
      Batch(cells, fetch).table[i] == BlankCells.(error := Some(EmptyArticle))
    ensures forall i :: 0 <= i < |cells| && cells[i].Some? ==>
      Done(Batch(cells, fetch).table[i]) == PricesByArticle(ArticleKey(cells[i].value), fetch(ArticleKey(cells[i].value)))
    ensures forall i :: 0 <= i < |cells| ==>
      PricesOnly(Batch(cells, fetch).table[i]) != ShowsError(Batch(cells, fetch).table[i])
  {
  }

  /**
   * A row's result depends only on its own cell and on the response for its own key:
   * other rows, and responses for other keys, never change it.
   */
  lemma RowDependsOnlyOnItsCell(cells1: seq<Cell>, fetch1: Fetch, i: nat, cells2: seq<Cell>, fetch2: Fetch, j: nat)
    requires Batch(cells1, fetch1).Saved? && Batch(cells2, fetch2).Saved?
    requires i < |cells1| && j < |cells2| && cells1[i] == cells2[j]
    requires forall key :: key in RequestOf(cells1[i]) ==> fetch1(key) == fetch2(key)
    ensures Batch(cells1, fetch1).table[i] == Batch(cells2, fetch2).table[j]
  {
    if cells1[i].Some? {
      assert ArticleKey(cells1[i].value) in RequestOf(cells1[i]);
    }
  }

  /**
   * The run writes a sheet exactly when the input has rows and no lookup raises; it is
   * aborted at row `k` exactly when `k` is the first row whose lookup raises, which is a
   * row with an article.
   */
  lemma OutcomeCases(cells: seq<Cell>, fetch: Fetch)
    ensures Batch(cells, fetch).Saved? <==>
      cells != [] && forall j :: 0 <= j < |cells| ==> RowFor(cells[j], fetch).Done?
    ensures Batch(cells, fetch).Aborted? ==>
      var k := Batch(cells, fetch).row;
      && k < |cells| && cells[k].Some? && RowFor(cells[k], fetch).Raised?
      && forall j :: 0 <= j < k ==> RowFor(cells[j], fetch).Done?
  {
    if cells != [] && forall j :: 0 <= j < |cells| ==> RowFor(cells[j], fetch).Done? {
      FirstRaiseNone(Lookups(cells, fetch), 0);
    }
  }

  /** An empty sheet is not processed: no request is made and no file is written. */
  lemma EmptySheetWritesNothing(fetch: Fetch)
    ensures Batch([], fetch) == NoArticles && Requests([]) == []
  {
  }

  lemma {:induction false} RequestsAppend(a: seq<Cell>, b: seq<Cell>)
    ensures Requests(a + b) == Requests(a) + Requests(b)
    decreases |b|
  {
    if b == [] {
      assert a + b == a;
    } else {
      var last := |b| - 1;
      assert (a + b)[..|a + b| - 1] == a + b[..last];
      RequestsAppend(a, b[..last]);
    }
  }

  /** Blank cells send no request: removing one leaves the requests unchanged. */
  lemma BlankCellRequestsNothing(before: seq<Cell>, after: seq<Cell>)
    ensures Requests(before + [None] + after) == Requests(before + after)
  {
    RequestsAppend(before + [None], after);
    RequestsAppend(before, after);
    assert (before + [None])[..|before|] == before;
  }

  /** The keys of the articles 1001 and 2002 are their decimal forms. */
  lemma ExampleKeys()
    ensures ArticleKey(1001) == "1001" && ArticleKey(2002) == "2002"
  {
    assert NatToString(10) == "10";
    assert NatToString(100) == "100";
    assert NatToString(20) == "20";
    assert NatToString(200) == "200";
  }

  /** The price block of a size: 100 roubles basic, 90 discounted and total, 5 logistics, 1 return. */
  const SampleBlock := map["basic" := Num(10000), "product" := Num(9000), "total" := Num(9000),
                           "logistics" := Num(500), "return" := Num(100)]

  /** A body with one product whose only size carries `SampleBlock`. */
  const SampleBody :=
    Obj(map["data" := Obj(map["products" := Arr([Obj(map["sizes" := Arr([Obj(map["price" := Obj(SampleBlock)])])])])])])

  /** The row `SampleBlock` is written as. */
  const SampleRow :=
    PriceRow(Some("100.00 RUB"), Some("90.00 RUB"), Some("90.00 RUB"), Some("5.00 RUB"), Some("1.00 RUB"), None)

  /** The amounts of `SampleBlock`, in roubles with two decimals. */
  lemma SampleAmounts()
    ensures Amount(10000) == "100.00" && Amount(9000) == "90.00"
    ensures Amount(500) == "5.00" && Amount(100) == "1.00"
  {
    assert TwoDigits(0) == "00";
    assert NatToString(10) == "10";
    assert NatToString(100) == "100";
    assert NatToString(90) == "90";
  }

  /** The five prices of `SampleBlock`, each with two decimals and the suffix. */
  lemma SamplePriceTexts()
    ensures FormatRub(10000) == "100.00 RUB" && FormatRub(9000) == "90.00 RUB"
    ensures FormatRub(500) == "5.00 RUB" && FormatRub(100) == "1.00 RUB"
  {
    SampleAmounts();
  }

  /** The lookup on `SampleBody` selects its only size and formats the five prices. */
  lemma SampleLookup(article: string)
    ensures PricesByArticle(article, Body(SampleBody)) == Done(SampleRow)
  {
    var size := Obj(map["price" := Obj(SampleBlock)]);
    var product := Obj(map["sizes" := Arr([size])]);
    var inner := Obj(map["products" := Arr([product])]);
    assert SampleBody == Obj(map["data" := inner]);
    assert Get(SampleBody, "data", Obj(map[])) == Done(inner);
    assert [product] + [] == [product];
    assert ProductList(SampleBody) == Done(Arr([product] + []));
    assert SizeSequence(product) == Done([size]);
    assert PriceInfo(size.fields) == Obj(SampleBlock);
    assert "basic" in SampleBlock;
    assert Qualifies(size);
    FirstQualifyingSizeSelected(article, SampleBody, product, [], [size], 0);
    SampleFormatted();
  }

  /** `SampleBlock`'s five prices are all numbers, and they format to `SampleRow`. */
  lemma SampleFormatted()
    ensures FormatPrices(SampleBlock) == Done(SampleRow)
  {
    SamplePriceTexts();
    assert Numeric(SampleBlock, "basic") && Numeric(SampleBlock, "product") && Numeric(SampleBlock, "total");
    assert Numeric(SampleBlock, "logistics") && Numeric(SampleBlock, "return");
  }

  /** Row 1001 of the example: its response is `SampleBody`, so it takes `SampleRow`. */
  lemma SampleArticleRow(fetch: Fetch)
    requires fetch("1001") == Body(SampleBody)
    ensures RowFor(Some(1001), fetch) == Done(SampleRow)
  {
    ExampleKeys();
    SampleLookup("1001");
  }

  /** Row 2002 of the example: its product list is empty, so it is reported as not found. */
  lemma MissingArticleRow(fetch: Fetch)
    requires fetch("2002") == Body(Obj(map["data" := Obj(map["products" := Arr([])])]))
    ensures RowFor(Some(2002), fetch) == Done(ErrorRow(NotFoundMessage("2002")))
  {
    ExampleKeys();
    NotFoundWhenNoProducts("2002", Obj(map["data" := Obj(map["products" := Arr([])])]));
  }

  /** A three-row sheet whose rows all complete is saved with those rows in order. */
  lemma ThreeRowsSaved(cells: seq<Cell>, fetch: Fetch, a: PriceRow, b: PriceRow, c: PriceRow)
    requires |cells| == 3
    requires RowFor(cells[0], fetch) == Done(a) && RowFor(cells[1], fetch) == Done(b)
    requires RowFor(cells[2], fetch) == Done(c)
    ensures Batch(cells, fetch) == Saved([a, b, c])
  {
    BatchSaves(cells, fetch, [a, b, c]);
  }

  /**
   * The sheet [1001, blank, 2002], where 1001's product has a size priced by `SampleBlock`
   * and 2002's product list is empty, is saved with three rows in input order: 1001's
   * formatted prices, "Empty article", and "not found" for 2002.
   */
  lemma ThreeRowExample(fetch: Fetch)
    requires fetch("1001") == Body(SampleBody)
    requires fetch("2002") == Body(Obj(map["data" := Obj(map["products" := Arr([])])]))
    ensures Batch([Some(1001), None, Some(2002)], fetch) ==
      Saved([SampleRow, BlankCells.(error := Some(EmptyArticle)), ErrorRow(NotFoundMessage("2002"))])
  {
    SampleArticleRow(fetch);
    MissingArticleRow(fetch);
    ThreeRowsSaved([Some(1001), None, Some(2002)], fetch,
      SampleRow, BlankCells.(error := Some(EmptyArticle)), ErrorRow(NotFoundMessage("2002")));
  }
}

=== FILE: decimal.dfy ===
/** Decimal notation of integers, as Python's `str(int)` writes it, and its inverse. */
module Decimal {
  import opened Wrappers

  predicate IsDigit(c: char) {
    '0' <= c <= '9'
  }

  predicate AllDigits(s: string) {
    forall i :: 0 <= i < |s| ==> IsDigit(s[i])
  }

  function DigitChar(d: nat): (c: char)
    requires d < 10
    ensures IsDigit(c)
  {
    ('0' as int + d) as char
  }

  function DigitValue(c: char): (d: nat)
    requires IsDigit(c)
    ensures d < 10 && DigitChar(d) == c
  {
    c as int - '0' as int
  }

  /** The shortest decimal notation of `n`: at least one digit, no leading zero. */
  function NatToString(n: nat): (s: string)
    ensures |s| >= 1 && AllDigits(s)
    ensures s[0] == '0' ==> n == 0
  {
    if n < 10 then [DigitChar(n)] else NatToString(n / 10) + [DigitChar(n % 10)]
  }

  /** The number a string of digits denotes (most significant digit first). */
  function ParseNat(s: string): nat
    requires AllDigits(s)
  {
    if s == [] then 0 else ParseNat(s[..|s| - 1]) * 10 + DigitValue(s[|s| - 1])
  }

  lemma {:induction false} ParseNatToString(n: nat)
    ensures ParseNat(NatToString(n)) == n
  {
    if n >= 10 {
      var s := NatToString(n);
      assert s[..|s| - 1] == NatToString(n / 10);
      ParseNatToString(n / 10);
    }
  }

  /** `str(n)` for a Python int: a minus sign before the magnitude when negative. */
  function IntToString(n: int): (s: string)
    ensures |s| >= 1 && (s[0] == '-' <==> n < 0)
    ensures AllDigits(if n < 0 then s[1..] else s)
  {
    if n < 0 then "-" + NatToString(-n) else NatToString(n)
  }

  /** `int(s)` restricted to what `str` produces: an optional minus sign and digits. */
  function ParseInt(s: string): Option<int> {
    if |s| > 0 && s[0] == '-' then
      if |s| > 1 && AllDigits(s[1..]) then Some(-(ParseNat(s[1..]) as int)) else None
    else if |s| > 0 && AllDigits(s) then Some(ParseNat(s))
    else None
  }

  /** Decimal notation is faithful: the key built from an article number gives it back. */
  lemma IntToStringRoundTrip(n: int)
    ensures ParseInt(IntToString(n)) == Some(n)
  {
    var s := IntToString(n);
    if n < 0 {
      assert s[1..] == NatToString(-n);
      ParseNatToString(-n);
    } else {
      ParseNatToString(n);
    }
  }

  /** Distinct article numbers give distinct lookup keys. */
  lemma IntToStringInjective(a: int, b: int)
    requires IntToString(a) == IntToString(b)
    ensures a == b
  {
    IntToStringRoundTrip(a);
    IntToStringRoundTrip(b);
  }
}

=== FILE: extractor.dfy ===
/**
 * `get_prices_by_article` with the HTTP request replaced by its outcome: selects the first
 * size of the first product that carries a usable price block and formats its five prices.
 */
module PriceExtractor {
  import opened Wrappers
  import opened PyJson
  import opened Decimal
  import opened RubFormat

  /** What the request produced: a transport failure, or a decoded JSON body. */
  datatype Response = RequestFailed(message: string) | Body(data: Json)

  /**
   * The six-tuple the lookup returns and the six result cells of a spreadsheet row:
   * basic, product (discounted), total, logistics and return prices, then the error.
   * `None` is Python's None.
   */
  datatype PriceRow = PriceRow(
    basic: Option<string>,
    product: Option<string>,
    total: Option<string>,
    logistics: Option<string>,
    ret: Option<string>,
    error: Option<string>)

  /** A failed lookup: no price at all, only the message. */
  function ErrorRow(message: string): PriceRow {
    PriceRow(None, None, None, None, None, Some(message))
  }

  /** A present, non-empty price text. */
  predicate Priced(cell: Option<string>) {
    cell.Some? && cell.value != ""
  }

  /** A successful lookup: five non-empty price texts and no error. */
  predicate PricesOnly(row: PriceRow) {
    && Priced(row.basic) && Priced(row.product) && Priced(row.total)
    && Priced(row.logistics) && Priced(row.ret) && row.error.None?
  }

  /** A failed lookup: no price and a non-empty error. */
  predicate ErrorOnly(row: PriceRow) {
    && row.basic.None? && row.product.None? && row.total.None?
    && row.logistics.None? && row.ret.None? && row.error.Some? && row.error.value != ""
  }

  /** Exactly one of {the five prices, a non-empty error} is present: never both, never neither. */
  predicate Settled(row: PriceRow) {
    PricesOnly(row) || ErrorOnly(row)
  }

  function RequestErrorMessage(message: string): string {
    "Request error: " + message
  }

  function NotFoundMessage(article: string): string {
    "Product with article " + article + " not found."
  }

  function NoSizesMessage(article: string): string {
    "No available sizes with prices for article " + article + "."
  }

  /** `data.get("data", {}).get("products", [])` */
  function ProductList(data: Json): (r: Eval<Json>)
    ensures !data.Obj? ==> r.Raised?
    ensures data.Obj? && "data" !in data.fields ==> r == Done(Arr([]))
    ensures data.Obj? && "data" in data.fields && !data.fields["data"].Obj? ==> r.Raised?
    ensures data.Obj? && "data" in data.fields && data.fields["data"].Obj? ==>
      r == Done(if "products" in data.fields["data"].fields then data.fields["data"].fields["products"] else Arr([]))
  {
    var inner :- Get(data, "data", Obj(map[]));
    Get(inner, "products", Arr([]))
  }

  /**
   * `products[0]` on a truthy value. A list gives its first element and a string its first
   * character; a dict has no key 0 (JSON keys are strings), and a number or bool cannot be
   * indexed.
   */
  function FirstProduct(products: Json): (r: Eval<Json>)
    ensures r.Done? <==> (products.Arr? || products.Str?) && Truthy(products)
    ensures r.Done? && products.Arr? ==> r.value == products.items[0]
    ensures r.Done? && products.Str? ==> r.value == Str([products.s[0]])
  {
    match products
    case Arr(xs) => if |xs| > 0 then Done(xs[0]) else Raised
    case Str(cs) => if |cs| > 0 then Done(Str([cs[0]])) else Raised
    case _ => Raised
  }

  /**
   * The elements `for size in product.get("sizes", [])` visits. A list gives its items;
   * an empty str or dict gives none; a non-empty str or dict yields str elements, whose
   * `.get` raises at once; None, numbers and bools are not iterable.
   */
  function SizeSequence(product: Json): (r: Eval<seq<Json>>)
    ensures !product.Obj? ==> r.Raised?
    ensures product.Obj? && "sizes" !in product.fields ==> r == Done([])
    ensures product.Obj? && "sizes" in product.fields && product.fields["sizes"].Arr? ==> r == Done(product.fields["sizes"].items)
    ensures r.Done? && r.value != [] ==> product.Obj? && "sizes" in product.fields && product.fields["sizes"] == Arr(r.value)
    ensures r.Raised? <==>
      || !product.Obj?
      || ("sizes" in product.fields && !product.fields["sizes"].Arr?
          && (Truthy(product.fields["sizes"]) || !(product.fields["sizes"].Str? || product.fields["sizes"].Obj?)))
  {
    var sizes :- Get(product, "sizes", Arr([]));
    match sizes
    case Arr(xs) => Done(xs)
    case Str(s) => if s == [] then Done([]) else Raised
    case Obj(m) => if m == map[] then Done([]) else Raised
    case _ => Raised
  }

  /** `size.get("price", {})` on a size entry that is a dict: `Get` on a known dict. */
  function PriceInfo(fields: map<string, Json>): Json {
    if "price" in fields then fields["price"] else Obj(map[])
  }

  /** `basic_price and discount_price and total_price` on a price dict. */
  predicate HasCorePrices(block: map<string, Json>) {
    Truthy(Member(block, "basic")) && Truthy(Member(block, "product")) && Truthy(Member(block, "total"))
  }

  /** A size the loop returns from: a dict whose price block is a non-empty dict with the three core prices. */
  predicate Qualifies(size: Json)
    ensures Qualifies(size) ==>
      && size.Obj? && "price" in size.fields && size.fields["price"].Obj?
      && "basic" in size.fields["price"].fields && "product" in size.fields["price"].fields
      && "total" in size.fields["price"].fields
  {
    && size.Obj?
    && PriceInfo(size.fields).Obj?
    && Truthy(PriceInfo(size.fields))
    && HasCorePrices(PriceInfo(size.fields).fields)
  }

  /** A size the loop passes over: a dict whose price block is falsy, or a dict lacking one of the three core prices. */
  predicate Skipped(size: Json)
    ensures Skipped(size) ==> !Qualifies(size)
    ensures size.Obj? && "price" !in size.fields ==> Skipped(size)
  {
    && size.Obj?
    && (|| !Truthy(PriceInfo(size.fields))
        || (PriceInfo(size.fields).Obj? && !HasCorePrices(PriceInfo(size.fields).fields)))
  }

  /**
   * Every size entry is qualifying, passed over, or one on which the loop body raises
   * (not a dict, or a truthy price block that is not a dict), and never both of the first two.
   */
  lemma SizeCases(size: Json)
    ensures Qualifies(size) || Skipped(size) || !size.Obj? || (Truthy(PriceInfo(size.fields)) && !PriceInfo(size.fields).Obj?)
    ensures !(Qualifies(size) && Skipped(size))
  {
  }

  /** A size whose `basic`, `product` or `total` price is 0, None or otherwise falsy is passed over. */
  lemma ZeroCorePriceSkipped(size: Json, key: string)
    requires size.Obj? && PriceInfo(size.fields).Obj?
    requires key in {"basic", "product", "total"}
    requires !Truthy(Member(PriceInfo(size.fields).fields, key))
    ensures Skipped(size)
  {
  }

  /**
   * Where the scan of the sizes stopped: returning from a qualifying size's price block,
   * running off the end, or raising on a malformed entry.
   */
  datatype Scan = Selected(at: nat, block: map<string, Json>) | NoneQualify | Malformed(at: nat)

  /** The index before which every size was passed over. */
  function StopIndex(r: Scan, n: nat): nat {
    if r.NoneQualify? then n else r.at
  }

  /** The `for size in sizes` loop, from position `i` on. */
  function ScanFrom(sizes: seq<Json>, i: nat): (r: Scan)
    requires i <= |sizes|
    ensures i <= StopIndex(r, |sizes|) <= |sizes|
    ensures forall j :: i <= j < StopIndex(r, |sizes|) ==> Skipped(sizes[j])
    ensures r.Selected? ==> r.at < |sizes| && Qualifies(sizes[r.at]) && r.block == PriceInfo(sizes[r.at].fields).fields
    ensures r.Malformed? ==> r.at < |sizes| && !Qualifies(sizes[r.at]) && !Skipped(sizes[r.at])
    decreases |sizes| - i
  {
    if i == |sizes| then NoneQualify
    else if Qualifies(sizes[i]) then Selected(i, PriceInfo(sizes[i].fields).fields)
    else if Skipped(sizes[i]) then ScanFrom(sizes, i + 1)
    else Malformed(i)
  }

  function ScanSizes(sizes: seq<Json>): Scan {
    ScanFrom(sizes, 0)
  }

  /** The empty text is not a formatted price. */
  lemma EmptyTextIsNoPrice()
    ensures ParseRub("") == None
  {
  }

  /**
   * `f"{x / 100:.2f} RUB"`, which raises unless `x` is a number. The text it gives reads
   * back as the number, so it is never empty.
   */
  function Div100(v: Json): (r: Eval<string>)
    ensures r.Done? <==> AsNumber(v).Some?
    ensures r.Done? ==> ParseRub(r.value) == AsNumber(v) && r.value != ""
    ensures r.Done? ==> r.value == FormatRub(AsNumber(v).value)
  {
    match AsNumber(v)
    case Some(n) =>
      FormatRubRoundTrip(n);
      EmptyTextIsNoPrice();
      Done(FormatRub(n))
    case None => Raised
  }

  /** True when `block.get(key)` can be divided by 100. */
  predicate Numeric(block: map<string, Json>, key: string) {
    AsNumber(Member(block, key)).Some?
  }

  /** A price cell is the formatted text of the block's amount for its key, and reads back as that amount. */
  predicate ShowsAmount(cell: Option<string>, block: map<string, Json>, key: string) {
    && cell.Some? && AsNumber(Member(block, key)).Some?
    && cell.value == FormatRub(AsNumber(Member(block, key)).value)
    && ParseRub(cell.value) == AsNumber(Member(block, key))
  }

  /** The success tuple built from a selected price block. */
  function FormatPrices(block: map<string, Json>): (r: Eval<PriceRow>)
    ensures r.Done? <==>
      Numeric(block, "basic") && Numeric(block, "product") && Numeric(block, "total")
      && Numeric(block, "logistics") && Numeric(block, "return")
    ensures r.Done? ==> Settled(r.value) && r.value.error.None?
    ensures r.Done? ==>
      && ShowsAmount(r.value.basic, block, "basic")
      && ShowsAmount(r.value.product, block, "product")
      && ShowsAmount(r.value.total, block, "total")
      && ShowsAmount(r.value.logistics, block, "logistics")
      && ShowsAmount(r.value.ret, block, "return")
  {
    var basic :- Div100(Member(block, "basic"));
    var product :- Div100(Member(block, "product"));
    var total :- Div100(Member(block, "total"));
    var logistics :- Div100(Member(block, "logistics"));
    var ret :- Div100(Member(block, "return"));
    Done(PriceRow(Some(basic), Some(product), Some(total), Some(logistics), Some(ret), None))
  }

  /**
   * `get_prices_by_article(article)` once the request has produced `response`. `Raised`
   * stands for an exception that escapes the function (it catches only request errors).
   */
  function PricesByArticle(article: string, response: Response): (r: Eval<PriceRow>)
    ensures r.Done? ==> Settled(r.value)
    ensures response.RequestFailed? ==>
      r == Done(ErrorRow(RequestErrorMessage(response.message)))
  {
    match response
    case RequestFailed(message) => Done(ErrorRow(RequestErrorMessage(message)))
    case Body(data) => PricesInBody(article, data)
  }

  /** The lookup on a decoded body: "not found" unless the product list is truthy. */
  function PricesInBody(article: string, data: Json): (r: Eval<PriceRow>)
    ensures r.Done? ==> Settled(r.value)
  {
    var products :- ProductList(data);
    if !Truthy(products) then Done(ErrorRow(NotFoundMessage(article)))
    else
      var product :- FirstProduct(products);
      PricesOfProduct(article, product)
  }

  /** The size loop over the first product. */
  function PricesOfProduct(article: string, product: Json): (r: Eval<PriceRow>)
    ensures r.Done? ==> Settled(r.value)
  {
    var sizes :- SizeSequence(product);
    match ScanSizes(sizes)
    case Selected(_, block) => FormatPrices(block)
    case NoneQualify => Done(ErrorRow(NoSizesMessage(article)))
    case Malformed(_) => Raised
  }

  /** An empty or missing product list means "not found", naming the article, with no price. */
  lemma NotFoundWhenNoProducts(article: string, data: Json)
    requires data.Obj?
    requires || "data" !in data.fields
             || (&& data.fields["data"].Obj?
                 && ("products" !in data.fields["data"].fields
                     || data.fields["data"].fields["products"] == Arr([])))
    ensures PricesByArticle(article, Body(data)) == Done(ErrorRow(NotFoundMessage(article)))
  {
  }

  /**
   * A non-empty string in place of the product list is indexed to its first character,
   * and `.get("sizes", [])` on that character raises.
   */
  lemma StringProductListRaises(article: string, data: Json, text: string)
    requires ProductList(data) == Done(Str(text)) && text != []
    ensures PricesInBody(article, data).Raised?
  {
    assert FirstProduct(Str(text)) == Done(Str([text[0]]));
  }

  /** Only the first product is consulted: the products after it never change the outcome. */
  lemma OnlyFirstProductConsulted(article: string, data1: Json, data2: Json, first: Json, rest1: seq<Json>, rest2: seq<Json>)
    requires ProductList(data1) == Done(Arr([first] + rest1))
    requires ProductList(data2) == Done(Arr([first] + rest2))
    ensures PricesByArticle(article, Body(data1)) == PricesByArticle(article, Body(data2))
  {
    assert FirstProduct(Arr([first] + rest1)) == Done(first);
    assert FirstProduct(Arr([first] + rest2)) == Done(first);
  }

  /**
   * Extending the size list behind the point where the scan stopped changes nothing: sizes
   * after the selected (or malformed) one are never examined.
   */
  lemma {:induction false} ScanFromIgnoresLaterSizes(sizes: seq<Json>, more: seq<Json>, i: nat)
    requires i <= |sizes|
    requires !ScanFrom(sizes, i).NoneQualify?
    ensures ScanFrom(sizes + more, i) == ScanFrom(sizes, i)
    decreases |sizes| - i
  {
    assert (sizes + more)[i] == sizes[i];
    if !Qualifies(sizes[i]) && Skipped(sizes[i]) {
      ScanFromIgnoresLaterSizes(sizes, more, i + 1);
    }
  }

  /**
   * The scan stops at the first size that is not passed over, whatever comes after it:
   * it selects that size when it qualifies and raises on it otherwise.
   */
  lemma {:induction false} ScanFromStopsAt(sizes: seq<Json>, i: nat, k: nat)
    requires i <= k < |sizes|
    requires forall j :: i <= j < k ==> Skipped(sizes[j])
    requires !Skipped(sizes[k])
    ensures ScanFrom(sizes, i) ==
      if Qualifies(sizes[k]) then Selected(k, PriceInfo(sizes[k].fields).fields) else Malformed(k)
    decreases k - i
  {
    if i < k {
      ScanFromStopsAt(sizes, i + 1, k);
    }
  }

  /** When every size from `i` on is passed over, the scan runs off the end. */
  lemma {:induction false} ScanFromExhausts(sizes: seq<Json>, i: nat)
    requires i <= |sizes|
    requires forall j :: i <= j < |sizes| ==> Skipped(sizes[j])
    ensures ScanFrom(sizes, i) == NoneQualify
    decreases |sizes| - i
  {
    if i < |sizes| {
      ScanFromExhausts(sizes, i + 1);
    }
  }

  lemma LaterSizesNeverExamined(sizes: seq<Json>, more: seq<Json>)
    requires !ScanSizes(sizes).NoneQualify?
    ensures ScanSizes(sizes + more) == ScanSizes(sizes)
  {
    ScanFromIgnoresLaterSizes(sizes, more, 0);
  }

  /**
   * The outcome is decided by the first qualifying size when every size before it is passed
   * over: its price block is formatted, whatever follows it.
   */
  lemma FirstQualifyingSizeSelected(article: string, data: Json, product: Json, rest: seq<Json>, sizes: seq<Json>, i: nat)
    requires ProductList(data) == Done(Arr([product] + rest))
    requires SizeSequence(product) == Done(sizes)
    requires i < |sizes| && Qualifies(sizes[i])
    requires forall j :: 0 <= j < i ==> Skipped(sizes[j])
    ensures PricesByArticle(article, Body(data)) == FormatPrices(PriceInfo(sizes[i].fields).fields)
  {
    ScanFromStopsAt(sizes, 0, i);
    assert PricesOfProduct(article, product) == FormatPrices(PriceInfo(sizes[i].fields).fields);
    assert FirstProduct(Arr([product] + rest)) == Done(product);
  }

  /**
   * When every size is passed over, and in particular when there are none, the lookup
   * reports that no size has prices, naming the article, with no price.
   */
  lemma NoQualifyingSizeReported(article: string, data: Json, product: Json, rest: seq<Json>, sizes: seq<Json>)
    requires ProductList(data) == Done(Arr([product] + rest))
    requires SizeSequence(product) == Done(sizes)
    requires forall j :: 0 <= j < |sizes| ==> Skipped(sizes[j])
    ensures PricesByArticle(article, Body(data)) == Done(ErrorRow(NoSizesMessage(article)))
  {
    ScanFromExhausts(sizes, 0);
    assert FirstProduct(Arr([product] + rest)) == Done(product);
  }

  /**
   * A selected price block without a logistics or a return price makes the lookup raise
   * (`None / 100` is a TypeError), rather than report an error in its result.
   */
  lemma MissingLogisticsOrReturnRaises(article: string, data: Json, product: Json, rest: seq<Json>, sizes: seq<Json>, i: nat)
    requires ProductList(data) == Done(Arr([product] + rest))
    requires SizeSequence(product) == Done(sizes)
    requires i < |sizes| && Qualifies(sizes[i])
    requires forall j :: 0 <= j < i ==> Skipped(sizes[j])
    requires "logistics" !in PriceInfo(sizes[i].fields).fields || "return" !in PriceInfo(sizes[i].fields).fields
    ensures PricesByArticle(article, Body(data)) == Raised
  {
    FirstQualifyingSizeSelected(article, data, product, rest, sizes, i);
  }

}

=== FILE: pyjson.dfy ===
/**
 * The decoded body of an API response, as Python sees it after `response.json()`,
 * and the few Python operations the price extractor applies to it.
 */
module PyJson {
  import opened Wrappers

  /** A JSON value. Numbers are integers only: the API sends prices as whole kopecks. */
  datatype Json =
    | Null
    | Bool(b: bool)
    | Num(n: int)
    | Str(s: string)
    | Arr(items: seq<Json>)
    | Obj(fields: map<string, Json>)

  /**
   * The value of a Python expression, or `Raised` when evaluating it raises an exception
   * that is not a `requests.RequestException` (AttributeError, TypeError, KeyError, ...).
   * Such an exception is not caught by the price lookup.
   */
  datatype Eval<+T> = Done(value: T) | Raised {

    predicate IsFailure() {
      Raised?
    }

    function PropagateFailure<U>(): Eval<U>
      requires Raised?
    {
      Raised
    }

    function Extract(): T
      requires Done?
    {
      value
    }
  }

  /**
   * Python truthiness of a decoded JSON value (`if x:` / `not x`). None is falsy, and a
   * number or bool is truthy exactly when it is not zero, so a price of 0 counts as missing.
   */
  predicate Truthy(v: Json)
    ensures v.Null? ==> !Truthy(v)
    ensures AsNumber(v).Some? ==> (Truthy(v) <==> AsNumber(v).value != 0)
  {
    match v
    case Null => false
    case Bool(b) => b
    case Num(n) => n != 0
    case Str(s) => s != []
    case Arr(xs) => xs != []
    case Obj(m) => m != map[]
  }

  /** `d.get(key)` on a known dict: `Get` with the default None, which cannot raise here. */
  function Member(fields: map<string, Json>, key: string): Json {
    if key in fields then fields[key] else Null
  }

  /**
   * `v.get(key, default)`: only a dict has `.get`; on any other value Python raises
   * AttributeError.
   */
  function Get(v: Json, key: string, default: Json): (r: Eval<Json>)
    ensures r.Done? <==> v.Obj?
    ensures r.Done? && key in v.fields ==> r.value == v.fields[key]
    ensures r.Done? && key !in v.fields ==> r.value == default
  {
    match v
    case Obj(fields) => Done(if key in fields then fields[key] else default)
    case _ => Raised
  }

  /**
   * The number a JSON value stands for as the left operand of `/ 100`: an int, or a bool
   * (Python's bool is an int). Anything else (None, str, list, dict) raises TypeError.
   */
  function AsNumber(v: Json): Option<int> {
    match v
    case Num(n) => Some(n)
    case Bool(b) => Some(if b then 1 else 0)
    case _ => None
  }
}

=== FILE: rubformat.dfy ===
/**
 * The price formatter of `get_prices_by_article`: `f"{x / 100:.2f} RUB"` for an integer
 * count of kopecks `x`, written with integer division instead of floats.
 */
module RubFormat {
  import opened Wrappers
  import opened Decimal

  const Suffix := " RUB"

  /** The two-digit, zero-padded kopeck part. */
  function TwoDigits(c: nat): (s: string)
    requires c < 100
    ensures |s| == 2 && AllDigits(s)
  {
    [DigitChar(c / 10), DigitChar(c % 10)]
  }

  /** "<roubles>.<two digits>" for a non-negative amount of kopecks. */
  function Amount(m: nat): (s: string)
    ensures |s| >= 4 && IsDigit(s[0])
    ensures s[0] == '0' ==> m < 100 && s[1] == '.'
  {
    NatToString(m / 100) + "." + TwoDigits(m % 100)
  }

  /**
   * Roubles with exactly two decimals and the currency suffix. Python prints a negative
   * quotient with a leading minus sign and the digits of its magnitude (-5 gives "-0.05").
   */
  function FormatRub(kopecks: int): (s: string)
    ensures |s| >= 8 && s[|s| - 4..] == Suffix
    ensures s[0] == '-' <==> kopecks < 0
    ensures (if kopecks < 0 then s[1] else s[0]) == '0' ==>
      -100 < kopecks < 100 && (if kopecks < 0 then s[2] else s[1]) == '.'
  {
    (if kopecks < 0 then "-" + Amount(-kopecks) else Amount(kopecks)) + Suffix
  }

  /** Reads "<roubles>.<two digits>" back as an amount of kopecks. */
  function ParseAmount(digits: string): Option<nat> {
    if |digits| < 4 || digits[|digits| - 3] != '.' then None
    else
      var roubles := digits[..|digits| - 3];
      var cents := digits[|digits| - 2..];
      if !AllDigits(roubles) || !AllDigits(cents) then None
      else Some(ParseNat(roubles) * 100 + ParseNat(cents))
  }

  /** Reads an amount with an optional leading minus sign. */
  function ParseSigned(body: string): Option<int> {
    if |body| > 0 && body[0] == '-' then
      match ParseAmount(body[1..])
      case Some(amount) => Some(-(amount as int))
      case None => None
    else
      match ParseAmount(body)
      case Some(amount) => Some(amount)
      case None => None
  }

  /**
   * Reads a formatted price back: an optional minus sign, one or more digits of roubles,
   * a point, exactly two digits of kopecks, then " RUB". Gives the amount in kopecks.
   */
  function ParseRub(s: string): Option<int> {
    if |s| < |Suffix| || s[|s| - |Suffix|..] != Suffix then None
    else ParseSigned(s[..|s| - |Suffix|])
  }

  lemma TwoDigitsValue(c: nat)
    requires c < 100
    ensures ParseNat(TwoDigits(c)) == c
  {
    var s := TwoDigits(c);
    assert s[..1][..0] == [];
    assert s[..1] == [DigitChar(c / 10)];
    assert DigitValue(s[0]) == c / 10;
    assert DigitValue(s[1]) == c % 10;
    assert ParseNat(s[..1]) == c / 10;
  }

  lemma AmountRoundTrip(m: nat)
    ensures ParseAmount(Amount(m)) == Some(m)
  {
    var r := NatToString(m / 100);
    var c := TwoDigits(m % 100);
    var digits := Amount(m);
    assert digits[|digits| - 3] == '.';
    assert digits[..|digits| - 3] == r;
    assert digits[|digits| - 2..] == c;
    ParseNatToString(m / 100);
    TwoDigitsValue(m % 100);
  }

  lemma SignedRoundTrip(kopecks: int)
    ensures ParseSigned(if kopecks < 0 then "-" + Amount(-kopecks) else Amount(kopecks)) == Some(kopecks)
  {
    if kopecks < 0 {
      var amount := Amount(-kopecks);
      var body := "-" + amount;
      assert |body| > 0 && body[0] == '-' && body[1..] == amount;
      AmountRoundTrip(-kopecks);
      assert ParseAmount(body[1..]) == Some(-kopecks);
    } else {
      var amount := Amount(kopecks);
      assert amount[0] != '-';
      AmountRoundTrip(kopecks);
    }
  }

  /**
   * The formatted string denotes exactly `kopecks / 100` roubles: reading it back gives the
   * same count of kopecks. In particular two different prices never print alike.
   */
  lemma FormatRubRoundTrip(kopecks: int)
    ensures ParseRub(FormatRub(kopecks)) == Some(kopecks)
  {
    var body := if kopecks < 0 then "-" + Amount(-kopecks) else Amount(kopecks);
    var s := body + Suffix;
    assert s[..|s| - |Suffix|] == body;
    assert s[|s| - |Suffix|..] == Suffix;
    SignedRoundTrip(kopecks);
  }

  /** The example of the price formatter: 12345 kopecks print as "123.45 RUB". */
  lemma FormatRubExample()
    ensures FormatRub(12345) == "123.45 RUB"
    ensures FormatRub(-5) == "-0.05 RUB"
  {
    assert NatToString(1) == "1";
    assert NatToString(12) == "12";
    assert NatToString(123) == "123";
    assert TwoDigits(45) == "45" && TwoDigits(5) == "05";
    assert Amount(12345) == "123.45";
    assert Amount(5) == "0.05";
  }
}

=== FILE: wrappers.dfy ===
/** Option, used for the source's `None` placeholders and for partial parses. */
module Wrappers {

  datatype Option<+T> = None | Some(value: T)
}
